=== FILE: README.md ===
# ChatRoom room registry and client logic, in Dafny

This project models the deterministic core of a small socket-based chat
application: the server's room registry with its six socket event handlers,
and the browser client's decision logic.

**Server** (`server.dfy`, `server_trace.dfy`). The state is the `rooms` table
(room id → connection id → `{username, lastReadId}`) together with what each
joined socket remembers (`socket.roomId`, `socket.username`). Each of `join`,
`chat`, `typing`, `reaction`, `read` and `disconnect` is a pure function from
the state, the sending connection and the payload to the next state and the
list of emissions. An emission is addressed to an abstract scope: `ToRoom(r)`
stands for `io.to(r)` and `ToRoomExceptSender(r, c)` for `socket.to(r)`. The
message ids and clock strings the server generates are parameters, and nothing
assumes they are unique or ordered. JavaScript's truthiness test on
`socket.roomId` is modelled as "the connection has a binding and its room id
is not empty". So a connection that joined the room `""` gets an entry in
`rooms[""]` but is treated as not joined: its other events are ignored, and
`disconnect` leaves its entry behind. A `read` whose entry is missing would
throw a `TypeError` in the source. It is modelled as a `Failure`, and
`ReachableNeverFaults` proves that no sequence of events from start-up gets
there.

**Client** (`client_input.dfy`, `client_view.dfy`).

- `String.prototype.trim` is modelled in `text.dfy`, with its exact set of
  whitespace characters.
- The client normalises the name and room id, guards against sending an empty
  message, and tests whether a message is shown as an image.
- The chat box is a list of rows. Three handlers change it: `appendChat`
  (colour assignment, the row, the read report for the client's own messages),
  `reaction` and `readUpdate`, which computes read checks from the server's
  table.

`session.dfy` connects the two sides. A join sent from the join screen always
binds, and a typed message is relayed as trimmed. A read reported by one
connection shows as a check for clients under other names, but only on bubbles
without an avatar. A message from another user is drawn with an avatar unless
its author is "System", and the `readUpdate` handler skips rows with an
avatar (`ClientView.OthersMessagesNeverChecked`). A client reports reads only
of messages whose author is its own name. So, with clients that report
honestly and distinct message ids, a check appears only on a bubble whose
author is "System", and only when some other connection has chosen the name
"System". Such a bubble is either a server notice or a chat message from the
client that chose that name; nothing stops a client from choosing it
(`ClientView.SystemNamedClientGetsChecked`).

The model follows the code. In particular:
- two connections may join a room under the same name;
- a room table is never deleted, even when empty;
- a connection that joins again keeps its entry in the room it joined before;
- message ids are opaque: nothing makes them unique or increasing;
- there is no persistence, no history replay and no `roomData` broadcast.

One consequence shows up in `ClientView.OwnMessagesNeverChecked`. The client
reports reads only of its own messages. So if every report is honest, and
message ids are distinct, nobody ever sees a check on their own messages.

## Model

| member | source | states |
|---|---|---|
| Server.RoomOf | server.js:60-61 | the room a connection's guards see is never the empty id (a falsy `socket.roomId` stops the handler), and in any state where every joined connection has its entry, that room's table exists and holds the connection's entry, which is what the write at line 61 relies on |
| Server.Join | server.js:17-35 | join binds the connection to the room under the given name; it sets the connection's entry to `{username, lastReadId: null}` in that room, creating the room's table when absent; every other room and every other entry is unchanged; there is no name check; exactly one "System" notice `<name> joined the room.` with no avatar and no reactions goes to the whole room |
| Server.Chat | server.js:38-44 | from a connection that is not joined: no change and nothing sent; otherwise the state is unchanged and one message goes to the whole room, sender included, with the given id, no reactions, the joined name as avatar, and user, text and time exactly as the client sent them |
| Server.Typing | server.js:47-50 | not joined: no-op; otherwise one typing event carrying the joined name (not a payload name) goes to the room except the sender; the rooms are unchanged |
| Server.Reaction | server.js:53-56 | not joined: no-op; otherwise the message id and emoji go to the whole room under the joined name; nothing is stored or checked |
| Server.Read | server.js:59-63 | not joined: no-op; otherwise only the sender's `lastReadId` changes, to the given id whatever it is; the room's full table is then sent to the whole room; it fails exactly when the sender is joined and its room table or its entry in it is missing, which the registry invariant excludes |
| Server.Disconnect | server.js:66-80 | the connection's binding goes away; only its entry in the room it is currently bound to is deleted, and the room's table stays even when empty; a notice `<name or "User"> left the room.` goes to that room; a connection that never joined changes no room and sends nothing |
| Server.ApplyPreservesInv | server.js:12-80 | every handler keeps the invariant "each joined connection has an entry under its name in its bound room"; from such a state no handler throws, and no handler removes a room table |
| ServerTrace.RunPreservesInv | server.js:12-80 | over any sequence of events the invariant is kept, no handler throws, and the set of room tables only grows |
| ServerTrace.ReachableNeverFaults | server.js:59-63 | the `read` handler's write to `rooms[roomId][socket.id]` never meets a missing entry on any event sequence from start-up |
| ServerTrace.SameNameTwice | server.js:17-24 | two different connections joining one room under the same name are both recorded |
| ServerTrace.RejoinLeavesStaleEntry | server.js:17-68 | a second join rebinds the connection but leaves its entry in the first room; the disconnect then deletes only the entry in the second room |
| ServerTrace.LastLeaverKeepsRoom | server.js:66-78 | when the only member of a room disconnects, the room's table remains, empty, and the "left" notice is addressed to that room |
| ServerTrace.EmptyRoomIdIsInert | server.js:17-68 | joining room "" records an entry but leaves the connection unjoined for every guard; its chat is ignored and its disconnect leaves the entry |
| Text.Trim | public/script.js:21 | `trim`'s result is no longer than its input and has no whitespace at either end |
| Text.TrimIsTrimming | public/script.js:21 | `trim` removes only whitespace, and only at the two ends, and leaves no whitespace at either end |
| Text.TrimmingIsUnique | public/script.js:21 | any way of cutting whitespace off both ends that leaves no whitespace at the ends gives exactly `trim`'s result |
| Text.TrimIdempotent | public/script.js:21 | trimming a trimmed string changes nothing |
| Text.TrimEmptyIffAllSpace | public/script.js:60-61 | `trim` returns the empty string exactly for inputs made only of whitespace |
| ClientInput.NormaliseName | public/script.js:21 | the user name is the trimmed input, or "Guest" when the input is blank; it is never empty |
| ClientInput.CreateRoom | public/script.js:20-25 | "Create" always enters a room; the room id is never empty: the trimmed input, or `room-` followed by the random suffix when the input is blank |
| ClientInput.JoinRoom | public/script.js:27-32 | "Join" enters no room exactly when the room input is blank; otherwise it joins the trimmed id under the normalised name |
| ClientInput.SendMessage | public/script.js:59-66 | nothing is sent exactly when the input is blank; otherwise `{user: name, text: trimmed input, time}` is sent, and that text is nonempty with no whitespace at its ends |
| ClientInput.ImageUrlOfAnyCase | public/script.js:98 | any text ending in a dot and `gif`, `jpg` or `png`, in any ASCII case, is shown as an image |
| ClientInput.ImageUrlShape | public/script.js:98 | a text shown as an image is some prefix, a dot and one of the three extensions in some ASCII case |
| ClientInput.IsImageUrl | public/script.js:98 | a text is shown as an image exactly when it has at least four characters, its fourth-last is a dot, and its last three equal `gif`, `jpg` or `png` up to ASCII case |
| ClientInput.ImageUrlExamples | public/script.js:98 | "cat.GIF", "x.Png" and ".jpg" are images: any ASCII case matches, and there need be no text before the dot |
| ClientInput.NotImageUrlExamples | public/script.js:98 | the match is anchored at the very end of the text and needs the literal dot: "cat.gif ", "cat.jpeg", "catgif", "gif" and "a.gifv" are not images |
| ClientView.AppendChat | public/script.js:71-114 | a user other than "System" gets a colour only if they have none, and existing colours never change; the row is appended with the message's id, no reactions and no check; it is an image exactly when the image test holds, and it has an avatar exactly for others' non-System messages; a read is reported exactly for the client's own messages; it throws, adding no row, exactly for a message from another user with an empty name |
| ClientView.ApplyReactionAsWritten | public/script.js:117-134 | the handler as it runs: the reaction is appended, with no de-duplication, to the first row without an avatar showing the message id; every other row, the name and the colours are unchanged; when no such row exists, nothing changes |
| ClientView.FindFirst | public/script.js:118-121 | the lookup returns the first matching row, or none |
| ClientView.ApplyReaction | public/script.js:117-134 | corrected handler: the reaction is appended to the first row with the message's id; every other row, the name and the colours are unchanged; an unknown id changes nothing |
| ClientView.ReactionsAppendOnly | public/script.js:123-133 | existing reactions are kept, in order, as a prefix of the new list |
| ClientView.ReactionsNotDeduplicated | public/script.js:130-133 | the same reaction from the same user, received twice, is shown twice |
| ClientView.AsWrittenIgnoresAvatarRows | public/script.js:118-121 | as written, a reaction to a message whose rows all have an avatar changes nothing |
| ClientView.ReactionToOthersMessageLost | public/script.js:117-121 | "alice" gets "bob"'s message and then a reaction to it: as written it is lost, and the corrected handler shows it |
| ClientView.ReadMark | public/script.js:147-151 | no check exactly when the set of readers (connections under another name whose last read is this message) is empty; two checks exactly when it has at least two members |
| ClientView.ReadMarkText | public/script.js:151 | the check's text is "✔", followed by a second "✔" when there is more than one reader, and is absent with no reader |
| ClientView.ReadMarkMeaning | public/script.js:147-153 | no check exactly when no entry under another name has this message as `lastReadId`; one check exactly when there is one such entry; two checks exactly when there are two distinct ones |
| ClientView.ApplyReadUpdate | public/script.js:137-155 | each row whose first `div` carries a nonempty id gets the check the new table gives it; other rows, the name and the colours are unchanged |
| ClientView.ReadUpdateLatestWins | public/script.js:144-148 | the old check is replaced, not added to, so two tables in a row give the same rows as the second alone |
| ClientView.OthersMessagesNeverChecked | public/script.js:81-87 | a chat message from another user who is not "System" is drawn with an avatar and keeps no check whatever read table arrives, because the read-update handler takes the avatar as the bubble and finds no id on it |
| ClientView.SystemNamedClientGetsChecked | public/script.js:72-91 | a client named "System" has its chat messages drawn without an avatar at "alice", and its read of its own message gives alice's row one check, although the message is not a notice |
| ClientView.OwnMessagesNeverChecked | public/script.js:113 | when each connection's last read is a message written under its own name, a viewer's own messages never get a check |
| Session.ClientJoinsAlwaysBind | public/script.js:20-35 | a join sent by either button leaves the server treating the connection as joined to the requested room |
| Session.TypedMessageRelayed | public/script.js:59-63 | a non-blank typed message reaches the whole room with its trimmed text and the sender's name as author and avatar; a blank one sends nothing |
| Session.ReadShowsForOthers | server.js:59-63 | after connection `c` reads message `m`, any client under another name that shows `m` in a bubble with no avatar sees at least one check; as written only own and "System" bubbles lack an avatar |
| Session.OwnEchoMarksRead | public/script.js:112-113 | the client's own message echoed by the server is rendered and reported read, and the server then records that id as the connection's last read |

## Findings

| source | as written | input that shows it | evidently intended | confidence | as-written member | corrected member |
|---|---|---|---|---|---|---|
| public/script.js:118-119 | the reaction handler finds the message through `div.querySelector("div")`, which on another user's message is the avatar `div` (added first, at line 81-86), and the avatar has no `data-msg-id` | "alice" receives message `m1` from "bob" and then a reaction to `m1`: no row matches and the reaction is dropped | the reaction is shown under `m1` whoever wrote it | high, not executed | ClientView.ApplyReactionAsWritten (shown by ClientView.ReactionToOthersMessageLost) | ClientView.ApplyReaction |

The `readUpdate` handler uses the same lookup at line 139. It is kept as written
in `ClientView.ApplyReadUpdate`, so read checks appear only on the client's own
bubbles and on System bubbles. Read checks are meant for one's own messages,
so there the lookup does no visible harm.

## Left out

- The socket.io and express transport, `socket.join`, `server.listen` and the console output: each emission is described only by its scope.
- `Date.now()`, `Math.random()` and `toLocaleTimeString()`: message ids, clock strings, the random room suffix and colour hues are parameters.
- The join handler's binding is kept until the socket disconnects. The model then deletes it, because a closed socket sends no more events.
- Payloads of the wrong shape are not modelled (for example a missing name, which would print "undefined joined the room."), and neither are extra fields a client might add to a chat object, which the server would pass through.
- Object keys that collide with `Object.prototype` members (a room or user called `constructor`) are not modelled.
- Strings are sequences of Unicode scalar values, not UTF-16 code units, so lone surrogates are not represented.
- DOM construction, `innerHTML`, CSS classes, scrolling, `prompt` and `alert`, and the leave button's `location.reload` are UI only.
- The typing indicator text and the 1500 ms typing timeout are left out: the first is UI, the second a timer.
- The Tenor GIF search is left out because it is a network call, and so is the GIF pick that sends its URL as a chat message. The emoji-picker placement is screen geometry.
- The "Join" button sets the client's name even when it refuses a blank room id. This is not modelled, because the name has no effect until a later join, and that join sets it again.
- models/Room.js is a storage schema that nothing in the server uses, so it is not modelled.
- The server code has no persistence, history replay, empty-room purge, name-conflict rejection, per-room increasing ids or `roomData` broadcast, so none of these is modelled.

=== FILE: client_input.dfy ===
/** The browser client's input handling: the name and room id taken from the
    join screen, the guard on sending a message, and the test that decides
    whether a message is shown as an image. */
module ClientInput {
  import opened Wrappers
  import opened Text
  import opened Protocol

  /** The name used when the name field is blank. */
  const GuestName: string := "Guest"

  /** The start of a generated room id. */
  const RoomPrefix: string := "room-"

  /** What `enterRoom` sends: `join(roomId, username)`. */
  datatype JoinRequest = JoinRequest(room: RoomId, username: string)

  /** The user name taken from the name field: trimmed, or "Guest" when blank. */
  function NormaliseName(input: string): (name: string)
    ensures name != []
    ensures !AllSpace(input) ==> name == Trim(input)
    ensures AllSpace(input) ==> name == GuestName
  {
    TrimEmptyIffAllSpace(input);
    var t := Trim(input);
    if t == [] then GuestName else t
  }

  /** "Create Room": the trimmed room id, or `room-` followed by a random
      suffix (a parameter here) when the field is blank. Always enters a room. */
  function CreateRoom(nameInput: string, roomInput: string, suffix: string): (q: JoinRequest)
    ensures q.username == NormaliseName(nameInput)
    ensures q.room != []
    ensures !AllSpace(roomInput) ==> q.room == Trim(roomInput)
    ensures AllSpace(roomInput) ==> q.room == RoomPrefix + suffix
  {
    TrimEmptyIffAllSpace(roomInput);
    var t := Trim(roomInput);
    JoinRequest(if t == [] then RoomPrefix + suffix else t, NormaliseName(nameInput))
  }

  /** "Join Room": the trimmed room id; a blank field enters no room. */
  function JoinRoom(nameInput: string, roomInput: string): (q: Option<JoinRequest>)
    ensures q.None? <==> AllSpace(roomInput)
    ensures q.Some? ==> q.value == JoinRequest(Trim(roomInput), NormaliseName(nameInput))
    ensures q.Some? ==> q.value.room != []
  {
    TrimEmptyIffAllSpace(roomInput);
    var t := Trim(roomInput);
    if t == [] then None else Some(JoinRequest(t, NormaliseName(nameInput)))
  }

  /** `sendMessage`: nothing for a blank input; otherwise the trimmed text with
      the client's name and the local time. */
  function SendMessage(input: string, username: string, time: string): (m: Option<ChatIn>)
    ensures m.None? <==> AllSpace(input)
    ensures m.Some? ==> m.value == ChatIn(username, Trim(input), time)
    ensures m.Some? ==> m.value.text != [] && Tight(m.value.text)
  {
    TrimEmptyIffAllSpace(input);
    TrimIsTrimming(input);
    var t := Trim(input);
    if t == [] then None else Some(ChatIn(username, t, time))
  }

  /** The extensions after the final dot that make a message an image. */
  const ImageExtensions: seq<string> := ["gif", "jpg", "png"]

  /** `/\.(gif|jpg|png)$/i`: the text ends with a dot and one of the image
      extensions, in any mix of ASCII case. */
  predicate IsImageUrl(text: string): (b: bool)
    ensures b <==> (
      && |text| >= 4 && text[|text| - 4] == '.'
      && exists ext :: ext in ImageExtensions && SameIgnoringAsciiCase(text[|text| - 3..], ext))
  {
    if |text| >= 4 && text[|text| - 4] == '.' then
      var written := text[|text| - 3..];
      ExtensionFolds(written);
      var ext := LowerAll(written);
      ext == "gif" || ext == "jpg" || ext == "png"
    else false
  }

  /** Three characters lower-case to an image extension exactly when they
      equal one up to ASCII case. */
  lemma ExtensionFolds(written: string)
    requires |written| == 3
    ensures LowerAll(written) in ImageExtensions <==>
      exists ext :: ext in ImageExtensions && SameIgnoringAsciiCase(written, ext)
  {
    if LowerAll(written) in ImageExtensions {
      FoldedIsSameCase(written);
    }
    if exists ext :: ext in ImageExtensions && SameIgnoringAsciiCase(written, ext) {
      var ext :| ext in ImageExtensions && SameIgnoringAsciiCase(written, ext);
      SameCaseFoldsTo(written, ext);
    }
  }

  /** Helper: a string agrees with its own lower-casing up to ASCII case. */
  lemma FoldedIsSameCase(written: string)
    ensures SameIgnoringAsciiCase(written, LowerAll(written))
  {
    var low := LowerAll(written);
    forall k | 0 <= k < |written| ensures AsciiLower(written[k]) == AsciiLower(low[k]) {
      assert AsciiLower(AsciiLower(written[k])) == AsciiLower(written[k]);
    }
  }

  /** Helper: equal up to case to a lower-case extension means lower-casing gives it. */
  lemma SameCaseFoldsTo(written: string, ext: string)
    requires ext in ImageExtensions && SameIgnoringAsciiCase(written, ext)
    ensures LowerAll(written) == ext
  {
    var low := LowerAll(written);
    forall k | 0 <= k < |ext| ensures low[k] == ext[k] {
      assert AsciiLower(ext[k]) == ext[k];
    }
  }

  /** ASCII lower-casing of a whole string. */
  function LowerAll(s: string): (r: string)
    ensures |r| == |s| && forall k :: 0 <= k < |s| ==> r[k] == AsciiLower(s[k])
  {
    if s == [] then [] else [AsciiLower(s[0])] + LowerAll(s[1..])
  }

  /** Any text, followed by a dot and an image extension written in any ASCII
      case, is an image. */
  lemma ImageUrlOfAnyCase(base: string, written: string, ext: string)
    requires ext in ImageExtensions && SameIgnoringAsciiCase(written, ext)
    ensures IsImageUrl(base + "." + written)
  {
    var t := base + "." + written;
    assert t[|t| - 3..] == written;
    assert t[|t| - 4] == '.';
    var low := LowerAll(written);
    assert low == ext by {
      forall k | 0 <= k < 3 ensures low[k] == ext[k] {
        assert AsciiLower(ext[k]) == ext[k];
      }
    }
  }

  /** Conversely, an image text is some text, a dot and an image extension in
      some ASCII case. */
  lemma ImageUrlShape(text: string)
    requires IsImageUrl(text)
    ensures var base, written := text[..|text| - 4], text[|text| - 3..];
      && text == base + "." + written
      && exists ext :: ext in ImageExtensions && SameIgnoringAsciiCase(written, ext)
  {
    var written := text[|text| - 3..];
    var low := LowerAll(written);
    assert text == text[..|text| - 4] + "." + written;
    assert SameIgnoringAsciiCase(written, low) by {
      forall k | 0 <= k < 3 ensures AsciiLower(written[k]) == AsciiLower(low[k]) {
        assert AsciiLower(AsciiLower(written[k])) == AsciiLower(written[k]);
      }
    }
    assert low in ImageExtensions;
  }

  /** Examples of the image test: any ASCII case of the extension matches,
      with or without text before the dot. */
  lemma ImageUrlExamples()
    ensures IsImageUrl("cat.GIF") && IsImageUrl("x.Png") && IsImageUrl(".jpg")
  {
    assert "cat.GIF"[4..] == "GIF" && LowerAll("GIF") == "gif";
    assert "x.Png"[2..] == "Png" && LowerAll("Png") == "png";
    assert ".jpg"[1..] == "jpg" && LowerAll("jpg") == "jpg";
  }

  /** Texts the image test rejects: the match is anchored at the very end of
      the text, the dot is literal and longer extensions do not match. */
  lemma NotImageUrlExamples()
    ensures !IsImageUrl("cat.gif ") && !IsImageUrl("cat.jpeg") && !IsImageUrl("catgif")
    ensures !IsImageUrl("gif") && !IsImageUrl("a.gifv")
  {
  }
}

=== FILE: client_view.dfy ===
/** The browser client's chat box as an abstract list of rendered rows, and the
    handlers that change it: a chat message arriving, a reaction arriving and a
    read-receipt table arriving. Colours are random hues chosen by the caller. */
module ClientView {
  import opened Wrappers
  import opened Protocol
  import opened ClientInput

  /** One reaction as shown under a message: `emoji (user)`. */
  datatype ReactionTag = ReactionTag(emoji: string, user: string)

  /** The read check on a bubble: none, "✔" or "✔✔". */
  datatype Mark = NoCheck | OneCheck | TwoChecks

  /** One row of the chat box. `hasAvatar` is set for messages of other users
      (not own, not "System"); the avatar is a `div` placed before the bubble. */
  datatype Row = Row(
    id: MsgId, user: string, text: string, time: string,
    image: bool, hasAvatar: bool, reactions: seq<ReactionTag>, mark: Mark)

  /** A hue as `Math.floor(Math.random() * 360)` produces it. */
  type Hue = h: int | 0 <= h < 360

  /** The client after joining: its name, the rows of the chat box in order and
      the colour given to each user name. */
  datatype View = View(username: string, rows: seq<Row>, colours: map<string, Hue>)

  /** `appendChat` either finishes, possibly asking the server to record a read,
      or throws part-way. */
  datatype Appended = Rendered(view: View, read: Option<MsgId>) | Threw(view: View)

  /** The text of a read check (`textContent` of the check span). */
  function MarkText(m: Mark): string {
    match m
    case NoCheck => ""
    case OneCheck => "\U{2714}"
    case TwoChecks => "\U{2714}\U{2714}"
  }

  /** `appendChat(msg)`: give the author a colour if it has none and is not
      "System", add a row (shown as an image when the text looks like one) and,
      for the client's own messages, report the message as read. A message from
      another user with an empty name throws while its avatar initial is taken
      (`msg.user[0].toUpperCase()`), after the colour is set and before the row
      is added. */
  function AppendChat(v: View, msg: ChatMsg, hue: Hue): (a: Appended)
    ensures a.view.username == v.username
    ensures forall u :: u in v.colours ==> u in a.view.colours && a.view.colours[u] == v.colours[u]
    ensures a.view.colours.Keys == v.colours.Keys + (if msg.user == SystemUser then {} else {msg.user})
    ensures a.Threw? <==> msg.user == [] && msg.user != v.username
    ensures a.Threw? ==> a.view.rows == v.rows
    ensures a.Rendered? ==>
      && |a.view.rows| == |v.rows| + 1 && a.view.rows[..|v.rows|] == v.rows
      && var row := a.view.rows[|v.rows|];
         && row.id == msg.id && row.user == msg.user && row.text == msg.text && row.time == msg.time
         && row.image == IsImageUrl(msg.text)
         && row.hasAvatar == (msg.user != v.username && msg.user != SystemUser)
         && row.reactions == [] && row.mark == NoCheck
    ensures a.Rendered? ==> (a.read.Some? <==> msg.user == v.username)
    ensures a.Rendered? && a.read.Some? ==> a.read.value == msg.id
  {
    var own := msg.user == v.username;
    var colours := if msg.user !in v.colours && msg.user != SystemUser
                   then v.colours[msg.user := hue] else v.colours;
    var avatar := !own && msg.user != SystemUser;
    if avatar && msg.user == [] then Threw(v.(colours := colours))
    else
      var row := Row(msg.id, msg.user, msg.text, msg.time, IsImageUrl(msg.text), avatar, [], NoCheck);
      Rendered(View(v.username, v.rows + [row], colours), if own then Some(msg.id) else None)
  }

  /** The `data-msg-id` the "reaction" and "readUpdate" handlers read off a row.
      They take the row's first `div` (`querySelector("div")`), which is the
      avatar when the row has one, and the avatar carries no id. */
  function FirstDivId(row: Row): Option<MsgId> {
    if row.hasAvatar then None else Some(row.id)
  }

  /** The index of the first row satisfying `matches`, or `|rows|` when none
      does (`Array.prototype.find`). */
  function FindFirst(rows: seq<Row>, matches: Row -> bool): (k: nat)
    ensures k <= |rows|
    ensures k < |rows| ==> matches(rows[k])
    ensures forall j :: 0 <= j < k ==> !matches(rows[j])
  {
    if rows == [] then 0
    else if matches(rows[0]) then 0
    else 1 + FindFirst(rows[1..], matches)
  }

  /** Append a reaction to row `k`, or change nothing when `k` is past the end. */
  function AddReactionAt(v: View, k: nat, tag: ReactionTag): View {
    if k < |v.rows| then
      v.(rows := v.rows[k := v.rows[k].(reactions := v.rows[k].reactions + [tag])])
    else v
  }

  /** Row `k` is the first row of `rows` whose first `div` carries `id`: the
      first row without an avatar showing message `id`. */
  predicate FirstAnchoredAt(rows: seq<Row>, k: int, id: MsgId) {
    && 0 <= k < |rows| && !rows[k].hasAvatar && rows[k].id == id
    && forall j :: 0 <= j < k ==> rows[j].hasAvatar || rows[j].id != id
  }

  /** The "reaction" handler as written: it looks the message up through
      `FirstDivId`, so rows carrying an avatar are never found. The reaction
      is appended, with no de-duplication, to the first row without an avatar
      showing `messageId`; every other row is unchanged; when there is no such
      row nothing changes. */
  function ApplyReactionAsWritten(v: View, messageId: MsgId, emoji: string, user: string): (w: View)
    ensures w.username == v.username && w.colours == v.colours && |w.rows| == |v.rows|
    ensures forall k :: FirstAnchoredAt(v.rows, k, messageId) ==>
      w.rows[k] == v.rows[k].(reactions := v.rows[k].reactions + [ReactionTag(emoji, user)])
    ensures forall k :: 0 <= k < |v.rows| && !FirstAnchoredAt(v.rows, k, messageId) ==> w.rows[k] == v.rows[k]
    ensures (forall k :: 0 <= k < |v.rows| ==> v.rows[k].hasAvatar || v.rows[k].id != messageId) ==> w == v
  {
    var k := FindFirst(v.rows, (row: Row) => FirstDivId(row) == Some(messageId));
    assert k < |v.rows| ==> FirstAnchoredAt(v.rows, k, messageId);
    AddReactionAt(v, k, ReactionTag(emoji, user))
  }

  /** Row `k` is the first row of `rows` whose message id is `id`. */
  predicate FirstWithId(rows: seq<Row>, k: int, id: MsgId) {
    0 <= k < |rows| && rows[k].id == id && forall j :: 0 <= j < k ==> rows[j].id != id
  }

  /** The "reaction" handler with the lookup by the bubble's own id: the
      reaction is appended, with no de-duplication, to the first row showing
      message `messageId`; every other row is unchanged, and an unknown id
      changes nothing. */
  function ApplyReaction(v: View, messageId: MsgId, emoji: string, user: string): (w: View)
    ensures w.username == v.username && w.colours == v.colours && |w.rows| == |v.rows|
    ensures forall k :: FirstWithId(v.rows, k, messageId) ==>
      w.rows[k] == v.rows[k].(reactions := v.rows[k].reactions + [ReactionTag(emoji, user)])
    ensures forall k :: 0 <= k < |v.rows| && !FirstWithId(v.rows, k, messageId) ==> w.rows[k] == v.rows[k]
    ensures (forall k :: 0 <= k < |v.rows| ==> v.rows[k].id != messageId) ==> w == v
  {
    var k := FindFirst(v.rows, (row: Row) => row.id == messageId);
    assert k < |v.rows| ==> FirstWithId(v.rows, k, messageId);
    AddReactionAt(v, k, ReactionTag(emoji, user))
  }

  /** Reactions only ever grow at the end: every row's earlier reactions are
      kept, in order. */
  lemma ReactionsAppendOnly(v: View, messageId: MsgId, emoji: string, user: string)
    ensures var w := ApplyReaction(v, messageId, emoji, user);
      forall k :: 0 <= k < |v.rows| ==>
        |w.rows[k].reactions| >= |v.rows[k].reactions|
        && w.rows[k].reactions[..|v.rows[k].reactions|] == v.rows[k].reactions
  {
    var w := ApplyReaction(v, messageId, emoji, user);
    forall k | 0 <= k < |v.rows|
      ensures |w.rows[k].reactions| >= |v.rows[k].reactions|
      ensures w.rows[k].reactions[..|v.rows[k].reactions|] == v.rows[k].reactions
    {
      if FirstWithId(v.rows, k, messageId) {
        assert (v.rows[k].reactions + [ReactionTag(emoji, user)])[..|v.rows[k].reactions|] == v.rows[k].reactions;
      }
    }
  }

  /** The same reaction from the same user, received twice, is shown twice. */
  lemma ReactionsNotDeduplicated(v: View, k: int, messageId: MsgId, emoji: string, user: string)
    requires FirstWithId(v.rows, k, messageId)
    ensures var w := ApplyReaction(ApplyReaction(v, messageId, emoji, user), messageId, emoji, user);
      w.rows[k].reactions == v.rows[k].reactions + [ReactionTag(emoji, user), ReactionTag(emoji, user)]
  {
    var w1 := ApplyReaction(v, messageId, emoji, user);
    assert FirstWithId(w1.rows, k, messageId);
  }

  /** The handler as written drops every reaction to a message that is shown
      with an avatar, however the row is identified. */
  lemma AsWrittenIgnoresAvatarRows(v: View, messageId: MsgId, emoji: string, user: string)
    requires forall k :: 0 <= k < |v.rows| && v.rows[k].id == messageId ==> v.rows[k].hasAvatar
    ensures ApplyReactionAsWritten(v, messageId, emoji, user) == v
  {
    var k := FindFirst(v.rows, (row: Row) => FirstDivId(row) == Some(messageId));
    if k < |v.rows| {
      assert false;
    }
  }

  /** The input that shows it: "alice" receives a message from "bob", then a
      reaction to it. As written the reaction is lost; looked up by the
      bubble's id it is shown. */
  lemma ReactionToOthersMessageLost(hue: Hue)
    ensures var a := AppendChat(View("alice", [], map[]), ChatMsg("m1", "bob", "hi", "10:00", Some("bob"), [], UserKind), hue);
      && a.Rendered?
      && ApplyReactionAsWritten(a.view, "m1", "+1", "carol") == a.view
      && ApplyReaction(a.view, "m1", "+1", "carol").rows[0].reactions == [ReactionTag("+1", "carol")]
  {
    var a := AppendChat(View("alice", [], map[]), ChatMsg("m1", "bob", "hi", "10:00", Some("bob"), [], UserKind), hue);
    AsWrittenIgnoresAvatarRows(a.view, "m1", "+1", "carol");
    assert FirstWithId(a.view.rows, 0, "m1");
  }

  /** The connections in a read-receipt table that have read message `id` and
      are not under the viewer's own name. */
  function Readers(users: RoomUsers, id: MsgId, viewer: string): set<ConnId> {
    set c | c in users && users[c].lastReadId == Some(id) && users[c].username != viewer
  }

  /** The check for a message: none with no reader, one with one, two with more. */
  function ReadMark(users: RoomUsers, id: MsgId, viewer: string): (m: Mark)
    ensures m == NoCheck <==> Readers(users, id, viewer) == {}
    ensures m == TwoChecks <==> |Readers(users, id, viewer)| >= 2
  {
    var n := |Readers(users, id, viewer)|;
    if n == 0 then NoCheck else if n == 1 then OneCheck else TwoChecks
  }

  /** A reader of `id` for `viewer`: a connection that last read `id` under
      another name. */
  predicate IsReader(users: RoomUsers, c: ConnId, id: MsgId, viewer: string) {
    c in users && users[c].lastReadId == Some(id) && users[c].username != viewer
  }

  /** The check's text is "✔" followed by a second "✔" when there is more
      than one reader, and nothing is drawn without a reader. */
  lemma ReadMarkText(users: RoomUsers, id: MsgId, viewer: string)
    ensures var n := |Readers(users, id, viewer)|;
      MarkText(ReadMark(users, id, viewer))
        == if n == 0 then "" else "\U{2714}" + (if n > 1 then "\U{2714}" else "")
  {
  }

  /** What each check means in terms of the table. */
  lemma ReadMarkMeaning(users: RoomUsers, id: MsgId, viewer: string)
    ensures ReadMark(users, id, viewer) == NoCheck <==>
      forall c :: !IsReader(users, c, id, viewer)
    ensures ReadMark(users, id, viewer) == TwoChecks <==>
      exists c, d :: c != d && IsReader(users, c, id, viewer) && IsReader(users, d, id, viewer)
    ensures ReadMark(users, id, viewer) == OneCheck <==>
      exists c :: IsReader(users, c, id, viewer) && forall d :: IsReader(users, d, id, viewer) ==> d == c
  {
    var rs := Readers(users, id, viewer);
    assert forall c :: c in rs <==> IsReader(users, c, id, viewer);
    if |rs| >= 2 {
      var c :| c in rs;
      assert |rs - {c}| == |rs| - 1;
      var d :| d in rs - {c};
    } else if |rs| == 1 {
      var c :| c in rs;
      assert |rs - {c}| == 0;
      assert rs - {c} == {};
      assert rs == {c};
    }
    if exists c, d :: c != d && IsReader(users, c, id, viewer) && IsReader(users, d, id, viewer) {
      var c, d :| c != d && IsReader(users, c, id, viewer) && IsReader(users, d, id, viewer);
      assert {c, d} <= rs;
      assert |{c, d}| == 2;
    }
  }

  /** The "readUpdate" handler: every row whose first `div` carries a nonempty
      id gets its check replaced by the one the new table gives; other rows are
      skipped. */
  function ApplyReadUpdate(v: View, users: RoomUsers): (w: View)
    ensures w.username == v.username && w.colours == v.colours && |w.rows| == |v.rows|
    ensures forall k :: 0 <= k < |v.rows| ==>
      if FirstDivId(v.rows[k]).Some? && FirstDivId(v.rows[k]).value != []
      then w.rows[k] == v.rows[k].(mark := ReadMark(users, v.rows[k].id, v.username))
      else w.rows[k] == v.rows[k]
  {
    v.(rows := seq(|v.rows|, k requires 0 <= k < |v.rows| =>
      var row := v.rows[k];
      if FirstDivId(row).Some? && FirstDivId(row).value != []
      then row.(mark := ReadMark(users, row.id, v.username)) else row))
  }

  /** The old check is removed before the new one is drawn, so the rows depend
      only on the latest table: applying two tables equals applying the second. */
  lemma ReadUpdateLatestWins(v: View, older: RoomUsers, newer: RoomUsers)
    ensures ApplyReadUpdate(ApplyReadUpdate(v, older), newer) == ApplyReadUpdate(v, newer)
  {
    var w1 := ApplyReadUpdate(ApplyReadUpdate(v, older), newer);
    var w2 := ApplyReadUpdate(v, newer);
    assert w1.rows == w2.rows;
  }

  /** As written, a chat message from another user (not "System") never gets a
      read check: its row has an avatar, and the "readUpdate" handler skips
      such rows whatever table arrives. */
  lemma OthersMessagesNeverChecked(v: View, msg: ChatMsg, hue: Hue, users: RoomUsers)
    requires msg.user != v.username && msg.user != SystemUser && msg.user != []
    ensures var a := AppendChat(v, msg, hue);
      && a.Rendered?
      && a.view.rows[|v.rows|].hasAvatar
      && ApplyReadUpdate(a.view, users).rows[|v.rows|] == a.view.rows[|v.rows|]
      && a.view.rows[|v.rows|].mark == NoCheck
  {
  }

  /** A client may choose the name "System". Its chat messages are then drawn
      without an avatar by everyone else, and the read it reports of its own
      message shows as a check there, although the message is no notice. */
  lemma SystemNamedClientGetsChecked(hue: Hue)
    ensures var a := AppendChat(View("alice", [], map[]), ChatMsg("m1", "System", "hi", "10:00", Some("System"), [], UserKind), hue);
      && a.Rendered? && !a.view.rows[0].hasAvatar && a.view.rows[0].user == SystemUser
      && ApplyReadUpdate(a.view, map["c2" := Entry("System", Some("m1"))]).rows[0].mark == OneCheck
  {
    var a := AppendChat(View("alice", [], map[]), ChatMsg("m1", "System", "hi", "10:00", Some("System"), [], UserKind), hue);
    var users := map["c2" := Entry("System", Some("m1"))];
    assert Readers(users, "m1", "alice") == {"c2"};
  }

  /** The client reports reads only of its own messages. So when every
      connection's `lastReadId` names a message written under that connection's
      own name (`author` gives each message id one author), no viewer ever sees
      a check on a message of its own. */
  lemma OwnMessagesNeverChecked(users: RoomUsers, author: map<MsgId, string>, id: MsgId, viewer: string)
    requires forall c :: c in users && users[c].lastReadId.Some? ==>
      users[c].lastReadId.value in author && author[users[c].lastReadId.value] == users[c].username
    requires id in author && author[id] == viewer
    ensures ReadMark(users, id, viewer) == NoCheck
  {
    assert Readers(users, id, viewer) == {};
  }
}

=== FILE: protocol.dfy ===
/** The events the chat server and its browser client exchange, as closed
    datatypes. Message ids and clock readings are opaque strings chosen by the
    sender; nothing here assumes they are unique or ordered. */
module Protocol {
  import opened Wrappers

  type ConnId = string
  type RoomId = string
  type MsgId = string

  /** The `type` field of a chat payload: "system" on server notices, absent
      on relayed user messages. */
  datatype MsgKind = SystemKind | UserKind

  /** What a client sends with "chat": `{user, text, time}`. */
  datatype ChatIn = ChatIn(user: string, text: string, time: string)

  /** What the server broadcasts as "chat". `avatar` is `null` on notices. */
  datatype ChatMsg = ChatMsg(
    id: MsgId, user: string, text: string, time: string,
    avatar: Option<string>, reactions: seq<string>, kind: MsgKind)

  /** One connection's record in a room's user table: `{username, lastReadId}`;
      `lastReadId` is `null` until the connection reports a read. */
  datatype Entry = Entry(username: string, lastReadId: Option<MsgId>)

  /** A room's user table, keyed by connection id. */
  type RoomUsers = map<ConnId, Entry>

  /** Server-to-client events. */
  datatype Event =
    | ChatEvent(msg: ChatMsg)
    | TypingEvent(username: string, typing: bool)
    | ReactionEvent(messageId: MsgId, emoji: string, username: string)
    | ReadUpdateEvent(users: RoomUsers)

  /** Who receives an emission: every connection in the room (`io.to`), or every
      connection in the room except the sending one (`socket.to`). */
  datatype Scope = ToRoom(room: RoomId) | ToRoomExceptSender(room: RoomId, sender: ConnId)

  datatype Emit = Emit(scope: Scope, event: Event)

  /** The user name the server puts on its own notices. */
  const SystemUser: string := "System"

  /** A server notice (`type: "system"`, no avatar, no reactions). */
  function Notice(id: MsgId, text: string, time: string): ChatMsg
  {
    ChatMsg(id, SystemUser, text, time, None, [], SystemKind)
  }
}

=== FILE: server.dfy ===
/** The chat server's room registry and its socket event handlers. Each handler
    is a pure transition from the registry state, the connection that sent the
    event and the event's payload to the next state and the emissions it makes.
    The message ids and clock readings the server generates are parameters. */
module Server {
  import opened Wrappers
  import opened Protocol

  /** What the server stores on a socket at join: `socket.roomId`, `socket.username`. */
  datatype Binding = Binding(room: RoomId, username: string)

  /** The process-wide `rooms` table and the binding of every live connection
      that has joined (a connection that never joined has no binding). */
  datatype State = State(rooms: map<RoomId, RoomUsers>, bound: map<ConnId, Binding>)

  /** The server as started: no rooms, no joined connections. */
  const Init: State := State(map[], map[])

  /** The state after a handler ran, and what it emitted, in order. */
  datatype Step = Step(state: State, out: seq<Emit>)

  /** A handler threw: `rooms[roomId][socket.id]` was absent when written to. */
  datatype Fault = MissingEntry(room: RoomId, conn: ConnId)

  /** The room a connection's handlers act on: `socket.roomId` when it is truthy.
      A connection that never joined, or joined the room "", has none. */
  function RoomOf(s: State, c: ConnId): (r: Option<RoomId>)
    ensures r.Some? ==> r.value != []
    ensures Inv(s) && r.Some? ==> r.value in s.rooms && c in s.rooms[r.value]
  {
    if c in s.bound && s.bound[c].room != "" then Some(s.bound[c].room) else None
  }

  /** The user table of room `r`, empty when the room was never created. */
  function UsersOf(s: State, r: RoomId): RoomUsers {
    if r in s.rooms then s.rooms[r] else map[]
  }

  /** Every joined connection has an entry, under its own name, in the room
      it is bound to. */
  ghost predicate Inv(s: State) {
    forall c :: c in s.bound ==>
      && s.bound[c].room in s.rooms
      && c in s.rooms[s.bound[c].room]
      && s.rooms[s.bound[c].room][c].username == s.bound[c].username
  }

  /** Text of the notice a join broadcasts. */
  function JoinedText(username: string): string {
    username + " joined the room."
  }

  /** Text of the notice a disconnect broadcasts; an empty name reads "User". */
  function LeftText(username: string): string {
    (if username == "" then "User" else username) + " left the room."
  }

  /** "join": bind the connection to `room` under `username`, record it in the
      room's table with no read yet (creating the table if needed) and announce
      it to the whole room. There is no name check and the connection's entry
      in a room it joined before is left in place. */
  function Join(s: State, c: ConnId, room: RoomId, username: string, id: MsgId, time: string): (t: Step)
    ensures t.state.bound.Keys == s.bound.Keys + {c}
    ensures t.state.bound[c] == Binding(room, username)
    ensures forall d :: d in s.bound && d != c ==> t.state.bound[d] == s.bound[d]
    ensures t.state.rooms.Keys == s.rooms.Keys + {room}
    ensures t.state.rooms[room].Keys == UsersOf(s, room).Keys + {c}
    ensures t.state.rooms[room][c] == Entry(username, None)
    ensures forall d :: d in UsersOf(s, room) && d != c ==> t.state.rooms[room][d] == UsersOf(s, room)[d]
    ensures forall r :: r in s.rooms && r != room ==> t.state.rooms[r] == s.rooms[r]
    ensures |t.out| == 1 && t.out[0].scope == ToRoom(room)
    ensures t.out[0].event.ChatEvent? && t.out[0].event.msg == Notice(id, JoinedText(username), time)
  {
    var users := UsersOf(s, room)[c := Entry(username, None)];
    Step(State(s.rooms[room := users], s.bound[c := Binding(room, username)]),
         [Emit(ToRoom(room), ChatEvent(Notice(id, JoinedText(username), time)))])
  }

  /** "chat": relay the client's message to the whole room, sender included,
      with a server-chosen id, no reactions and the sender's joined name as
      avatar; user, text and time are passed through untouched. */
  function Chat(s: State, c: ConnId, msg: ChatIn, id: MsgId): (t: Step)
    ensures t.state == s
    ensures RoomOf(s, c).None? ==> t.out == []
    ensures RoomOf(s, c).Some? ==>
      && |t.out| == 1 && t.out[0].scope == ToRoom(RoomOf(s, c).value)
      && t.out[0].event.ChatEvent?
      && var m := t.out[0].event.msg;
         && m.id == id && m.reactions == [] && m.kind == UserKind
         && m.avatar == Some(s.bound[c].username)
         && m.user == msg.user && m.text == msg.text && m.time == msg.time
  {
    match RoomOf(s, c)
    case None => Step(s, [])
    case Some(r) =>
      var m := ChatMsg(id, msg.user, msg.text, msg.time, Some(s.bound[c].username), [], UserKind);
      Step(s, [Emit(ToRoom(r), ChatEvent(m))])
  }

  /** "typing": tell everyone else in the room whether the sender is typing,
      under the sender's joined name. */
  function Typing(s: State, c: ConnId, typing: bool): (t: Step)
    ensures t.state == s
    ensures RoomOf(s, c).None? ==> t.out == []
    ensures RoomOf(s, c).Some? ==>
      t.out == [Emit(ToRoomExceptSender(RoomOf(s, c).value, c), TypingEvent(s.bound[c].username, typing))]
  {
    match RoomOf(s, c)
    case None => Step(s, [])
    case Some(r) => Step(s, [Emit(ToRoomExceptSender(r, c), TypingEvent(s.bound[c].username, typing))])
  }

  /** "reaction": relay the emoji for `messageId` to the whole room under the
      sender's joined name. The server neither checks the id nor stores it. */
  function Reaction(s: State, c: ConnId, messageId: MsgId, emoji: string): (t: Step)
    ensures t.state == s
    ensures RoomOf(s, c).None? ==> t.out == []
    ensures RoomOf(s, c).Some? ==>
      t.out == [Emit(ToRoom(RoomOf(s, c).value), ReactionEvent(messageId, emoji, s.bound[c].username))]
  {
    match RoomOf(s, c)
    case None => Step(s, [])
    case Some(r) => Step(s, [Emit(ToRoom(r), ReactionEvent(messageId, emoji, s.bound[c].username))])
  }

  /** "read": set the sender's `lastReadId` to `messageId`, whatever it is, then
      send the room's whole user table to the room. Fails when the sender has
      no entry in its room, which `Inv` rules out. */
  function Read(s: State, c: ConnId, messageId: MsgId): (res: Result<Step, Fault>)
    ensures RoomOf(s, c).None? ==> res == Success(Step(s, []))
    ensures Inv(s) ==> res.Success?
    ensures res.Failure? <==>
      RoomOf(s, c).Some? && (RoomOf(s, c).value !in s.rooms || c !in s.rooms[RoomOf(s, c).value])
    ensures res.Success? && RoomOf(s, c).Some? ==>
      var r := RoomOf(s, c).value;
      var t := res.value;
      && r in s.rooms && c in s.rooms[r]
      && t.state.bound == s.bound
      && t.state.rooms.Keys == s.rooms.Keys
      && (forall q :: q in s.rooms && q != r ==> t.state.rooms[q] == s.rooms[q])
      && t.state.rooms[r].Keys == s.rooms[r].Keys
      && t.state.rooms[r][c] == Entry(s.rooms[r][c].username, Some(messageId))
      && (forall d :: d in s.rooms[r] && d != c ==> t.state.rooms[r][d] == s.rooms[r][d])
      && t.out == [Emit(ToRoom(r), ReadUpdateEvent(t.state.rooms[r]))]
  {
    match RoomOf(s, c)
    case None => Success(Step(s, []))
    case Some(r) =>
      if r !in s.rooms || c !in s.rooms[r] then Failure(MissingEntry(r, c))
      else
        var users := s.rooms[r][c := s.rooms[r][c].(lastReadId := Some(messageId))];
        Success(Step(State(s.rooms[r := users], s.bound), [Emit(ToRoom(r), ReadUpdateEvent(users))]))
  }

  /** "disconnect": the connection goes away. If it is bound to a truthy room
      whose table exists, its entry there is deleted (the table stays, even when
      empty) and a notice goes to the room. Entries it left in rooms it joined
      earlier are not touched. */
  function Disconnect(s: State, c: ConnId, id: MsgId, time: string): (t: Step)
    ensures t.state.bound == s.bound - {c}
    ensures t.state.rooms.Keys == s.rooms.Keys
    ensures (RoomOf(s, c).None? || RoomOf(s, c).value !in s.rooms) ==>
      t.state.rooms == s.rooms && t.out == []
    ensures RoomOf(s, c).Some? && RoomOf(s, c).value in s.rooms ==>
      var r := RoomOf(s, c).value;
      && t.state.rooms[r].Keys == s.rooms[r].Keys - {c}
      && (forall d :: d in t.state.rooms[r] ==> t.state.rooms[r][d] == s.rooms[r][d])
      && (forall q :: q in s.rooms && q != r ==> t.state.rooms[q] == s.rooms[q])
      && t.out == [Emit(ToRoom(r), ChatEvent(Notice(id, LeftText(s.bound[c].username), time)))]
  {
    var bound := s.bound - {c};
    if RoomOf(s, c).Some? && RoomOf(s, c).value in s.rooms then
      var r := RoomOf(s, c).value;
      Step(State(s.rooms[r := s.rooms[r] - {c}], bound),
           [Emit(ToRoom(r), ChatEvent(Notice(id, LeftText(s.bound[c].username), time)))])
    else
      Step(State(s.rooms, bound), [])
  }

  /** One socket event, as the server receives it, with the id and clock reading
      the server would generate while handling it. */
  datatype Request =
    | JoinReq(conn: ConnId, room: RoomId, username: string, id: MsgId, time: string)
    | ChatReq(conn: ConnId, msg: ChatIn, id: MsgId)
    | TypingReq(conn: ConnId, typing: bool)
    | ReactionReq(conn: ConnId, messageId: MsgId, emoji: string)
    | ReadReq(conn: ConnId, messageId: MsgId)
    | DisconnectReq(conn: ConnId, id: MsgId, time: string)

  /** Dispatch one event to its handler. */
  function Apply(s: State, q: Request): Result<Step, Fault> {
    match q
    case JoinReq(c, room, u, id, time) => Success(Join(s, c, room, u, id, time))
    case ChatReq(c, msg, id) => Success(Chat(s, c, msg, id))
    case TypingReq(c, b) => Success(Typing(s, c, b))
    case ReactionReq(c, m, e) => Success(Reaction(s, c, m, e))
    case ReadReq(c, m) => Read(s, c, m)
    case DisconnectReq(c, id, time) => Success(Disconnect(s, c, id, time))
  }

  /** Every handler keeps `Inv` and never throws from a state satisfying it; and
      no handler ever deletes a room table. */
  lemma ApplyPreservesInv(s: State, q: Request)
    requires Inv(s)
    ensures Apply(s, q).Success?
    ensures Inv(Apply(s, q).value.state)
    ensures s.rooms.Keys <= Apply(s, q).value.state.rooms.Keys
  {
    var t := Apply(s, q).value;
    match q
    case JoinReq(c, room, u, id, time) =>
      forall d | d in t.state.bound
        ensures t.state.bound[d].room in t.state.rooms
        ensures d in t.state.rooms[t.state.bound[d].room]
        ensures t.state.rooms[t.state.bound[d].room][d].username == t.state.bound[d].username
      {
        if d != c && s.bound[d].room == room {
          assert d in UsersOf(s, room);
        }
      }
    case ReadReq(c, m) =>
      if RoomOf(s, c).Some? {
        forall d | d in t.state.bound
          ensures t.state.bound[d].room in t.state.rooms
          ensures d in t.state.rooms[t.state.bound[d].room]
          ensures t.state.rooms[t.state.bound[d].room][d].username == t.state.bound[d].username
        {
        }
      }
    case DisconnectReq(c, id, time) =>
    case _ =>
  }
}

=== FILE: server_trace.dfy ===
/** Sequences of socket events handled one after another by the server, and
    the registry's behaviour over them. */
module ServerTrace {
  import opened Wrappers
  import opened Protocol
  import opened Server

  /** Handle `qs` in order from `s`: the final state and every emission, in
      order, or the first handler fault. */
  function Run(s: State, qs: seq<Request>): Result<Step, Fault>
    decreases |qs|
  {
    if qs == [] then Success(Step(s, []))
    else
      match Apply(s, qs[0])
      case Failure(e) => Failure(e)
      case Success(t) =>
        match Run(t.state, qs[1..])
        case Failure(e) => Failure(e)
        case Success(u) => Success(Step(u.state, t.out + u.out))
  }

  /** From a state satisfying the registry invariant, no sequence of events
      makes a handler throw, the invariant still holds at the end, and no room
      table has been removed. */
  lemma {:induction false} RunPreservesInv(s: State, qs: seq<Request>)
    requires Inv(s)
    ensures Run(s, qs).Success?
    ensures Inv(Run(s, qs).value.state)
    ensures s.rooms.Keys <= Run(s, qs).value.state.rooms.Keys
    decreases |qs|
  {
    if qs != [] {
      ApplyPreservesInv(s, qs[0]);
      RunPreservesInv(Apply(s, qs[0]).value.state, qs[1..]);
    }
  }

  /** Every sequence of events the server can receive from start-up is handled
      without a fault. */
  lemma ReachableNeverFaults(qs: seq<Request>)
    ensures Run(Init, qs).Success?
    ensures Inv(Run(Init, qs).value.state)
  {
    RunPreservesInv(Init, qs);
  }

  /** Two connections may join one room under the same name: both are
      recorded. */
  lemma SameNameTwice(s: State, c1: ConnId, c2: ConnId, room: RoomId, name: string,
                      id1: MsgId, id2: MsgId, time1: string, time2: string)
    requires c1 != c2
    ensures var t := Join(Join(s, c1, room, name, id1, time1).state, c2, room, name, id2, time2).state;
      && c1 in t.rooms[room] && c2 in t.rooms[room]
      && t.rooms[room][c1].username == name && t.rooms[room][c2].username == name
  {
    var t1 := Join(s, c1, room, name, id1, time1).state;
    assert c1 in UsersOf(t1, room);
  }

  /** Joining a second room rebinds the connection but leaves its entry in the
      first; a disconnect then deletes only the entry in the second room. */
  lemma RejoinLeavesStaleEntry(s: State, c: ConnId, r1: RoomId, r2: RoomId, name1: string,
                               name2: string, id1: MsgId, id2: MsgId, id3: MsgId,
                               time1: string, time2: string, time3: string)
    requires r1 != r2 && r2 != ""
    ensures var t2 := Join(Join(s, c, r1, name1, id1, time1).state, c, r2, name2, id2, time2).state;
      var t3 := Disconnect(t2, c, id3, time3).state;
      && RoomOf(t2, c) == Some(r2)
      && c in t2.rooms[r1] && t2.rooms[r1][c] == Entry(name1, None)
      && c in t3.rooms[r1] && c !in t3.rooms[r2]
  {
    var t1 := Join(s, c, r1, name1, id1, time1).state;
    assert r1 in t1.rooms;
  }

  /** When the last connection of a room disconnects, the room's table stays,
      empty; nothing is purged. */
  lemma LastLeaverKeepsRoom(c: ConnId, room: RoomId, name: string, id1: MsgId, id2: MsgId,
                            time1: string, time2: string)
    requires room != ""
    ensures var t := Disconnect(Join(Init, c, room, name, id1, time1).state, c, id2, time2);
      && t.state.rooms == map[room := map[]]
      && t.out == [Emit(ToRoom(room), ChatEvent(Notice(id2, LeftText(name), time2)))]
  {
    var t := Disconnect(Join(Init, c, room, name, id1, time1).state, c, id2, time2);
    assert t.state.rooms.Keys == {room};
    assert t.state.rooms[room].Keys == {};
  }

  /** Joining the room "" records the connection in the table for "", yet the
      connection counts as not joined: its events are ignored and a disconnect
      leaves its entry behind. */
  lemma EmptyRoomIdIsInert(s: State, c: ConnId, name: string, id: MsgId, time: string,
                           msg: ChatIn, id2: MsgId, id3: MsgId, time3: string)
    ensures var t := Join(s, c, "", name, id, time).state;
      && c in t.rooms[""]
      && RoomOf(t, c) == None
      && Chat(t, c, msg, id2) == Step(t, [])
      && var u := Disconnect(t, c, id3, time3);
         c in u.state.rooms[""] && u.out == []
  {
  }
}

=== FILE: session.dfy ===
/** How the client's requests fare at the server, and how the server's
    read-receipt table shows up at other clients. */
module Session {
  import opened Wrappers
  import opened Text
  import opened Protocol
  import opened Server
  import opened ClientInput
  import opened ClientView

  /** A join sent from the join screen never names the room "", so the server
      always treats the connection as joined afterwards, whichever button was
      used. */
  lemma ClientJoinsAlwaysBind(s: State, c: ConnId, nameInput: string, roomInput: string,
                              suffix: string, id: MsgId, time: string)
    ensures var q := CreateRoom(nameInput, roomInput, suffix);
      RoomOf(Join(s, c, q.room, q.username, id, time).state, c) == Some(q.room)
    ensures var q := JoinRoom(nameInput, roomInput);
      q.Some? ==> RoomOf(Join(s, c, q.value.room, q.value.username, id, time).state, c) == Some(q.value.room)
  {
  }

  /** A message typed into a joined client reaches the whole room with the
      trimmed, nonempty text, the client's name as author and avatar, and no
      reactions; a blank input sends nothing at all. */
  lemma TypedMessageRelayed(s: State, c: ConnId, input: string, time: string, id: MsgId)
    requires RoomOf(s, c).Some?
    ensures var m := SendMessage(input, s.bound[c].username, time);
      m.Some? ==>
        var t := Chat(s, c, m.value, id);
        && t.state == s
        && |t.out| == 1 && t.out[0].scope == ToRoom(RoomOf(s, c).value)
        && t.out[0].event.ChatEvent?
        && t.out[0].event.msg.user == s.bound[c].username
        && t.out[0].event.msg.avatar == Some(s.bound[c].username)
        && t.out[0].event.msg.text == Trim(input) && t.out[0].event.msg.text != []
        && t.out[0].event.msg.reactions == []
    ensures AllSpace(input) <==> SendMessage(input, s.bound[c].username, time).None?
  {
  }

  /** After connection `c` reports reading message `m`, a client under any
      other name that shows `m` in a bubble without an avatar sees at least one
      check on it once the broadcast table arrives. */
  lemma ReadShowsForOthers(s: State, c: ConnId, m: MsgId, v: View, k: int)
    requires Inv(s) && RoomOf(s, c).Some?
    requires v.username != s.bound[c].username
    requires 0 <= k < |v.rows| && FirstDivId(v.rows[k]) == Some(m) && m != []
    ensures var t := Read(s, c, m).value;
      && t.out[0].event.ReadUpdateEvent?
      && ApplyReadUpdate(v, t.out[0].event.users).rows[k].mark != NoCheck
  {
    var t := Read(s, c, m).value;
    var users := t.out[0].event.users;
    assert IsReader(users, c, m, v.username);
    ReadMarkMeaning(users, m, v.username);
  }

  /** A client renders its own message echoed back by the server and reports
      it read; the server records exactly that id against the connection. */
  lemma OwnEchoMarksRead(s: State, c: ConnId, msg: ChatIn, id: MsgId, v: View, hue: Hue)
    requires Inv(s) && RoomOf(s, c).Some?
    requires v.username == msg.user && msg.user != []
    ensures var echoed := Chat(s, c, msg, id).out[0].event.msg;
      var a := AppendChat(v, echoed, hue);
      && a.Rendered? && a.read == Some(id)
      && var t := Read(s, c, id).value;
         t.state.rooms[RoomOf(s, c).value][c].lastReadId == Some(id)
  {
  }
}

=== FILE: text.dfy ===
/** String operations the client relies on: `String.prototype.trim`
    and ASCII case folding as done by a case-insensitive regular expression. */
module Text {

  /** The characters JavaScript's `trim` strips: WhiteSpace (tab, vertical tab,
      form feed, space, no-break space, byte order mark and the Unicode
      space separators) and LineTerminator (LF, CR, LS, PS). */
  predicate IsSpace(c: char) {
    || c == '\t' || c == '\n' || c == '\U{B}' || c == '\U{C}' || c == '\r'
    || c == ' ' || c == '\U{A0}' || c == '\U{1680}'
    || ('\U{2000}' <= c <= '\U{200A}')
    || c == '\U{2028}' || c == '\U{2029}' || c == '\U{202F}' || c == '\U{205F}'
    || c == '\U{3000}' || c == '\U{FEFF}'
  }

  /** Every character of `s` is one that `trim` strips. */
  predicate AllSpace(s: string) {
    forall k :: 0 <= k < |s| ==> IsSpace(s[k])
  }

  /** `s` has no space at either end (the empty string qualifies). */
  predicate Tight(s: string) {
    s == [] || (!IsSpace(s[0]) && !IsSpace(s[|s| - 1]))
  }

  /** Drops leading spaces: the result is the suffix of `s` that starts
      at its first non-space character. */
  function TrimStart(s: string): (r: string)
    ensures |r| <= |s| && r == s[|s| - |r|..]
    ensures forall k :: 0 <= k < |s| - |r| ==> IsSpace(s[k])
    ensures r == [] || !IsSpace(r[0])
  {
    if |s| > 0 && IsSpace(s[0]) then TrimStart(s[1..]) else s
  }

  /** Drops trailing spaces: the result is the prefix of `s` that ends
      at its last non-space character. */
  function TrimEnd(s: string): (r: string)
    ensures |r| <= |s| && r == s[..|r|]
    ensures forall k :: |r| <= k < |s| ==> IsSpace(s[k])
    ensures r == [] || !IsSpace(r[|r| - 1])
  {
    if |s| > 0 && IsSpace(s[|s| - 1]) then TrimEnd(s[..|s| - 1]) else s
  }

  /** `String.prototype.trim`: no longer than `s`, with no space at either end. */
  function Trim(s: string): (r: string)
    ensures |r| <= |s| && Tight(r)
  {
    TrimEnd(TrimStart(s))
  }

  /** `r` is the piece `s[i..j]` of `s` that is left when the spaces at both
      ends are cut away: everything outside it is space and it is tight. */
  ghost predicate IsTrimmingOf(s: string, r: string) {
    exists i, j :: 0 <= i <= j <= |s| && r == s[i..j]
      && AllSpace(s[..i]) && AllSpace(s[j..]) && Tight(r)
  }

  /** `Trim` cuts only spaces and leaves a tight string. */
  lemma TrimIsTrimming(s: string)
    ensures IsTrimmingOf(s, Trim(s))
  {
    var t := TrimStart(s);
    var r := TrimEnd(t);
    var i := |s| - |t|;
    var j := i + |r|;
    assert t == s[i..];
    assert r == s[i..j];
    SpacePrefix(s, i);
    forall k | j <= k < |s| ensures IsSpace(s[k]) {
      assert s[k] == t[k - i];
    }
    SpaceSuffix(s, j);
    assert Trim(s) == s[i..j];
  }

  /** Helper: index-wise spaces before `i` make `s[..i]` all space. */
  lemma SpacePrefix(s: string, i: int)
    requires 0 <= i <= |s| && forall k :: 0 <= k < i ==> IsSpace(s[k])
    ensures AllSpace(s[..i])
  {
  }

  /** Helper: index-wise spaces from `j` on make `s[j..]` all space. */
  lemma SpaceSuffix(s: string, j: int)
    requires 0 <= j <= |s| && forall k :: j <= k < |s| ==> IsSpace(s[k])
    ensures AllSpace(s[j..])
  {
    forall k | 0 <= k < |s| - j ensures IsSpace(s[j..][k]) {
      assert s[j..][k] == s[j + k];
    }
  }

  /** If the first non-space character of `s` is at `i`, `TrimStart` keeps `s[i..]`. */
  lemma {:induction false} TrimStartAt(s: string, i: int)
    requires 0 <= i <= |s| && AllSpace(s[..i])
    requires i == |s| || !IsSpace(s[i])
    ensures TrimStart(s) == s[i..]
    decreases i
  {
    if i > 0 {
      assert IsSpace(s[..i][0]);
      assert s[1..][..i - 1] == s[..i][1..];
      TrimStartAt(s[1..], i - 1);
      assert s[1..][i - 1..] == s[i..];
    }
  }

  /** If the last non-space character of `s` is at `j - 1`, `TrimEnd` keeps `s[..j]`. */
  lemma {:induction false} TrimEndAt(s: string, j: int)
    requires 0 <= j <= |s| && AllSpace(s[j..])
    requires j == 0 || !IsSpace(s[j - 1])
    ensures TrimEnd(s) == s[..j]
    decreases |s| - j
  {
    if j < |s| {
      assert IsSpace(s[j..][|s| - 1 - j]);
      var s' := s[..|s| - 1];
      assert s'[j..] == s[j..][..|s| - 1 - j];
      TrimEndAt(s', j);
      assert s'[..j] == s[..j];
    }
  }

  /** Any way of cutting spaces off both ends that leaves a tight string
      gives exactly `Trim`: the trimming of a string is unique. */
  lemma TrimmingIsUnique(s: string, r: string)
    requires IsTrimmingOf(s, r)
    ensures r == Trim(s)
  {
    var i, j :| 0 <= i <= j <= |s| && r == s[i..j]
      && AllSpace(s[..i]) && AllSpace(s[j..]) && Tight(r);
    TrimOfPiece(s, i, j);
  }

  /** The index form of `TrimmingIsUnique`. */
  lemma TrimOfPiece(s: string, i: int, j: int)
    requires 0 <= i <= j <= |s|
    requires AllSpace(s[..i]) && AllSpace(s[j..]) && Tight(s[i..j])
    ensures Trim(s) == s[i..j]
  {
    if i == j {
      SpaceAroundEmpty(s, i);
      TrimOfSpaces(s);
    } else {
      assert s[i..j][0] == s[i];
      assert s[i..j][j - i - 1] == s[j - 1];
      TrimOfTightPiece(s, i, j);
    }
  }

  /** Helper: `TrimOfPiece` when the piece is nonempty, stated on its end characters. */
  lemma TrimOfTightPiece(s: string, i: int, j: int)
    requires 0 <= i < j <= |s|
    requires AllSpace(s[..i]) && AllSpace(s[j..])
    requires !IsSpace(s[i]) && !IsSpace(s[j - 1])
    ensures Trim(s) == s[i..j]
  {
    TrimStartAt(s, i);
    TrimEndOfSuffix(s, i, j);
  }

  /** Helper: trimming the end of `s[i..]` leaves `s[i..j]`. */
  lemma TrimEndOfSuffix(s: string, i: int, j: int)
    requires 0 <= i < j <= |s|
    requires AllSpace(s[j..]) && !IsSpace(s[j - 1])
    ensures TrimEnd(s[i..]) == s[i..j]
  {
    var t := s[i..];
    assert t[j - i..] == s[j..];
    assert t[j - i - 1] == s[j - 1];
    TrimEndAt(t, j - i);
    assert t[..j - i] == s[i..j];
  }

  /** Helper: spaces before and after an empty piece cover the whole string. */
  lemma SpaceAroundEmpty(s: string, i: int)
    requires 0 <= i <= |s| && AllSpace(s[..i]) && AllSpace(s[i..])
    ensures AllSpace(s)
  {
    forall k | 0 <= k < |s| ensures IsSpace(s[k]) {
      if k < i { assert s[..i][k] == s[k]; } else { assert s[i..][k - i] == s[k]; }
    }
  }

  /** A string of spaces only trims to the empty string. */
  lemma TrimOfSpaces(s: string)
    requires AllSpace(s)
    ensures Trim(s) == []
  {
    assert s[..|s|] == s;
    TrimStartAt(s, |s|);
  }

  /** Trimming twice is trimming once. */
  lemma TrimIdempotent(s: string)
    ensures Trim(Trim(s)) == Trim(s)
  {
    var r := Trim(s);
    TrimIsTrimming(s);
    assert IsTrimmingOf(r, r) by {
      assert r == r[0..|r|] && AllSpace(r[..0]) && AllSpace(r[|r|..]);
    }
    TrimmingIsUnique(r, r);
  }

  /** `trim` yields the empty string exactly for strings made of spaces only. */
  lemma TrimEmptyIffAllSpace(s: string)
    ensures Trim(s) == [] <==> AllSpace(s)
  {
    if AllSpace(s) {
      assert IsTrimmingOf(s, []) by {
        assert s[..|s|] == s && AllSpace(s[|s|..]) && [] == s[|s|..|s|];
      }
      TrimmingIsUnique(s, []);
    } else {
      var k :| 0 <= k < |s| && !IsSpace(s[k]);
    }
  }

  /** The lower-case form of an ASCII letter; every other character is kept.
      Case-insensitive JavaScript regular expressions without the `u` flag
      never equate a non-ASCII character with an ASCII one, so this is the
      folding that matters for ASCII patterns. */
  function AsciiLower(c: char): (d: char)
    ensures 'A' <= c <= 'Z' ==> 'a' <= d <= 'z' && d as int - c as int == 32
    ensures !('A' <= c <= 'Z') ==> d == c
  {
    if 'A' <= c <= 'Z' then (c as int + 32) as char else c
  }

  /** `a` and `b` agree up to the case of ASCII letters. */
  predicate SameIgnoringAsciiCase(a: string, b: string) {
    |a| == |b| && forall k :: 0 <= k < |a| ==> AsciiLower(a[k]) == AsciiLower(b[k])
  }
}

=== FILE: wrappers.dfy ===
/** Failure-carrying datatypes shared by the model. */
module Wrappers {

  /** A value that may be absent; stands for JavaScript's `null`/`undefined`. */
  datatype Option<+T> = None | Some(value: T)

  /** The outcome of a handler that may throw instead of returning. */
  datatype Result<+R, +E> = Success(value: R) | Failure(error: E)
}
